=== FILE: README.md ===
# COM classes, interface identities and generator configuration of vst3-bindgen, in Dafny

This project models three pieces of the vst3-bindgen repository and proves properties of them.

1. **The class machinery of com-scrape-types.**
   - `impl_class!(C: I1 + ... + In)` gives a Rust type a COM identity. It generates a header with one sub-object per interface, an `Implements<I_k>::OFFSET` per interface, and `query_interface`, `add_ref` and `release`.
   - A `ComWrapper<C>` is one reference-counted allocation holding that header followed by the data.
   - Modules `Layout` and `Class` model the address arithmetic: `offset_of!`, and moving between the data, the header, the allocation and each interface sub-object.
   - Module `Wrapper` models the life of one allocation as a state machine over its strong count. It records who owns each counted reference and how often the allocation was freed.
2. **Interface identities in the `vst3` crate.** Module `Uid` models `tuid_as_guid` and both platform variants of `uid`.
   - On Windows the identity is laid out as a Microsoft GUID: a little-endian 32-bit word, then two little-endian 16-bit halves, then big-endian bytes.
   - Everywhere else it is laid out as four big-endian 32-bit words.
3. **The configuration side of com-scrape's generator.** Module `Generator` models:
   - translating rustc target triples to clang's spelling;
   - choosing whether clang gets a target at all;
   - `GeneratorOptions::default`;
   - the `Generator` builder. A sequence of builder calls is modelled as a list of calls folded over `Generator::new()`.

Modelling choices:
- Bytes and words are integer subranges.
- Rust's `as i8` and `as u8` casts are written out as wrap-around modulo 256.
- Addresses are unbounded integers.
- Struct layouts are abstract: per-field offsets and sizes, with non-negative offsets and pairwise-disjoint fields.
- The environment variable `TARGET` and the build-time host triple are parameters of `ClangTarget`.
- User closures are opaque tokens (`Callback`).
- `ReleaseOp(WrapperHold)` stands for forgetting a wrapper and then releasing its count by hand through a raw pointer.

## Model

| member | source | states |
|---|---|---|
| Types.InheritsIffOnChain | com-scrape-types/src/lib.rs:20-29 | an interface accepts an identity exactly when the identity belongs to the interface itself or to one of its ancestors along its base chain |
| Uid.TuidAsGuid | src/lib.rs:49-68 | each of the 16 result bytes is the signed input byte taken modulo 256 |
| Uid.TuidGuidBijection | src/lib.rs:49-68 | `tuid_as_guid` loses nothing: reading the bytes back as signed gives the original TUID, and every GUID arises from exactly one TUID |
| Uid.UidUnixLayout | src/lib.rs:92-112 | on non-Windows targets the identity's bytes, read unsigned, are the big-endian bytes of `a`, `b`, `c` and `d` in order |
| Uid.UidUnixRoundTrip | src/lib.rs:92-112 | decoding the non-Windows identity as four big-endian words gives back `a`, `b`, `c`, `d` |
| Uid.UidUnixInjective | src/lib.rs:92-112 | different `(a, b, c, d)` give different non-Windows identities |
| Uid.UidWindowsLayout | src/lib.rs:70-90 | on Windows the bytes are `a` little-endian, then the high and the low 16-bit halves of `b` each little-endian, then `c` and `d` big-endian |
| Uid.UidWindowsRoundTrip | src/lib.rs:70-90 | decoding the Windows identity as a GUID (32-bit LE, 16-bit LE, 16-bit LE, then big-endian bytes) gives back `a`, `b`, `c`, `d` |
| Uid.UidWindowsInjective | src/lib.rs:70-90 | different `(a, b, c, d)` give different Windows identities |
| Uid.UidWindowsPermutesUnix | src/lib.rs:70-112 | the Windows identity is the non-Windows one with bytes 0-3 reversed and bytes 4-5 and 6-7 swapped; bytes 8-15 agree |
| Uid.UidZero | src/lib.rs:70-112 | both variants map `(0, 0, 0, 0)` to the all-zero identity |
| Layout.OffsetOf | com-scrape-types/src/class.rs:70-82 | `offset_of!` is non-negative and the same whatever base address the dummy value has |
| Layout.DistinctOffsets | com-scrape-types/src/class.rs:39-41 | in a struct whose fields are non-empty, no two fields have the same offset |
| Class.ImplementsOffset | com-scrape-types/src/class.rs:53-57 | `Implements<I_k>::OFFSET` places interface k's sub-object inside the header, at an offset no other interface shares |
| Class.WrapperFromData | com-scrape-types/src/class.rs:192-195 | `wrapper_from_data` gives the allocation whose data field is at the given pointer |
| Class.HeaderFromData | com-scrape-types/src/class.rs:230-235 | `header_from_data` gives the header field of the allocation that `wrapper_from_data` finds |
| Class.DataFromHeader | com-scrape-types/src/class.rs:223-228 | `data_from_header` gives the data of the allocation whose header is at the pointer, and `header_from_data` takes it straight back |
| Class.HeaderDataRoundTrip | com-scrape-types/src/class.rs:223-235 | `data_from_header` and `header_from_data` are inverse in both directions |
| Class.InterfaceFromWrapper | com-scrape-types/src/class.rs:142-151 | `interface_from_wrapper::<I_k>` is field k of the header field of the allocation |
| Class.QueryPointer | com-scrape-types/src/class.rs:19-21 | the pointer `query_interface` computes from the data pointer is the one `interface_from_wrapper` computes from the allocation |
| Class.Header | com-scrape-types/src/class.rs:43-51 | `HEADER` has one sub-object per declared interface, in declaration order, each built for its own interface and its own `OFFSET` |
| Class.AllViewsReachData | com-scrape-types/src/class.rs:46-50 | a call through any interface sub-object steps back by that sub-object's offset and reaches the same data that `Deref` gives |
| Class.SubObjectsDisjoint | com-scrape-types/src/class.rs:98-102 | the interface sub-objects of one allocation overlap neither each other nor the data |
| Class.FirstMatch | com-scrape-types/src/class.rs:15-26 | the interface `query_interface` answers for is the first declared one whose `inherits` accepts the identity; None exactly when none accepts it |
| Class.FirstDeclaredWins | com-scrape-types/src/class.rs:16-23 | when two declared interfaces both accept an identity, the later one is never chosen |
| Wrapper.New | com-scrape-types/src/class.rs:129-140 | `ComWrapper::new` creates a live allocation with count 1, held by the wrapper |
| Wrapper.CloneWrapper | com-scrape-types/src/class.rs:108-113 | cloning a wrapper adds one count and exactly one hold, the new wrapper's; every other hold is untouched and the allocation stays live |
| Wrapper.DropWrapper | com-scrape-types/src/class.rs:104-106 | dropping a wrapper removes exactly that wrapper's hold and one count, leaves every other hold, and frees the allocation, once, exactly when it was the last |
| Wrapper.AddRef | com-scrape-types/src/class.rs:197-208 | `add_ref` returns the new count, one more than before, and records who owns the extra reference: never a wrapper, and a pointer only to a declared interface |
| Wrapper.Release | com-scrape-types/src/class.rs:210-221 | `release` returns the new count, one less than before; the allocation is freed, once, exactly when that count is 0 |
| Wrapper.AsComRef | com-scrape-types/src/class.rs:153-164 | `as_com_ref::<I_k>` gives the pointer `query_interface` returns when it answers with interface k, and leaves the count alone |
| Wrapper.ToComPtr | com-scrape-types/src/class.rs:166-177 | `to_com_ptr::<I_k>` adds one count owned by the new pointer, the wrapper keeps its own, and the address is the `as_com_ref` one |
| Wrapper.IntoComPtr | com-scrape-types/src/class.rs:179-190 | `into_com_ptr::<I_k>` hands the wrapper's count to the pointer without changing the count, at the `as_com_ref` address |
| Wrapper.QueryInterface | com-scrape-types/src/class.rs:13-26 | `query_interface` answers None, changing nothing, exactly when no declared interface accepts the identity; otherwise it answers the first accepting interface's pointer and takes one count for the caller |
| Wrapper.QueryAgreesWithToComPtr | com-scrape-types/src/class.rs:15-22 | when no interface declared before k accepts k's identity, asking the object for that identity gives the same pointer and the same new state as `to_com_ptr::<I_k>` |
| Wrapper.Step | com-scrape-types/src/class.rs:104-221 | an operation succeeds exactly when the allocation is live and its safety precondition holds (a wrapper for the `ComWrapper` methods, a declared interface for the interface methods, an owned reference for `release`, and for `add_ref` an owner that is not a wrapper and names only a declared interface); a borrow leaves the allocation unchanged; the accounting stays valid |
| Wrapper.StepHolds | com-scrape-types/src/class.rs:104-221 | each successful operation gives up exactly the hold it names (a dropped or consumed wrapper, a released reference) and creates exactly the hold it names (a clone, an owned interface pointer, the caller's reference, the reference a successful query takes); no other hold changes |
| Wrapper.StepDelta | com-scrape-types/src/class.rs:104-221 | each operation moves the count by its fixed amount: +1 for clone, `to_com_ptr`, `add_ref` and a successful query; -1 for drop and `release`; 0 otherwise |
| Wrapper.Run | com-scrape-types/src/class.rs:104-221 | after any sequence of operations the accounting still holds and the allocation has been freed at most once |
| Wrapper.WrappersOnlyFromClones | com-scrape-types/src/class.rs:104-221 | a wrapper comes only from `new` or `clone`: after any run there are at most as many wrappers as at the start plus the clones in the run |
| Wrapper.NoWrapperFromRawReference | com-scrape-types/src/class.rs:104-221 | after `into_com_ptr` consumes the only wrapper, an `add_ref` cannot mint a wrapper, and a clone fails |
| Wrapper.RunAccounting | com-scrape-types/src/class.rs:104-221 | after any sequence of operations the count is the starting count plus the sum of their amounts |
| Wrapper.BorrowsChangeNothing | com-scrape-types/src/class.rs:153-164 | a sequence of operations that runs to the end ends in the same state with its borrows (`as_com_ref`) removed |
| Wrapper.RunAppend | com-scrape-types/src/class.rs:104-221 | running two sequences one after the other is running their concatenation |
| Wrapper.AddRefs | com-scrape-types/src/class.rs:197-208 | `k` `add_ref`s add exactly `k` counts, all owned by the caller |
| Wrapper.Releases | com-scrape-types/src/class.rs:210-221 | `k` `release`s of `k` counts taken on top of a live allocation restore exactly that allocation |
| Wrapper.RetainReleaseRoundTrip | com-scrape-types/src/class.rs:197-221 | `k` `add_ref`s followed by `k` `release`s leave a live allocation exactly as it was |
| Wrapper.OneReleaseTooManyDestroys | com-scrape-types/src/class.rs:210-221 | after balanced `add_ref`s and `release`s, dropping the only wrapper frees the allocation exactly once, and nothing applies afterwards |
| Wrapper.EndToEndScenario | com-scrape-types/src/class.rs:13-36 | for a one-interface class: wrap, take a pointer, drop the wrapper, query, release twice; the counts are 1, 2, 1, 2, 1, 0 and the allocation is freed once |
| Generator.RustToClangTarget | com-scrape/src/generator.rs:15-21 | a leading `aarch64-apple-` becomes `arm64-apple-` with the rest kept verbatim; other triples are unchanged; no result starts with `aarch64-apple-` |
| Generator.RustToClangTargetIdempotent | com-scrape/src/generator.rs:15-21 | translating twice is translating once |
| Generator.RustToClangTargetReversible | com-scrape/src/generator.rs:15-21 | putting rustc's prefix back on a translated Apple Arm triple gives the original triple |
| Generator.ClangTarget | com-scrape/src/generator.rs:133-138 | clang gets a target exactly when `TARGET` is set and differs from the host, and then in clang's spelling |
| Generator.DefaultOptions | com-scrape/src/generator.rs:34-47 | the default options include and skip nothing and set no hook |
| Generator.New | com-scrape/src/generator.rs:55-60 | a new generator has the default options and an empty source |
| Generator.IncludePath | com-scrape/src/generator.rs:62-65 | `include_path` appends one path after the earlier ones and changes nothing else |
| Generator.SkipType | com-scrape/src/generator.rs:67-70 | `skip_type` adds one name to the skipped types and changes nothing else |
| Generator.SkipTypeList | com-scrape/src/generator.rs:72-77 | after `skip_types` a type is skipped exactly when it was skipped before or is listed; nothing else changes |
| Generator.SkipInterfaceTrait | com-scrape/src/generator.rs:79-84 | `skip_interface_trait` adds one name to the skipped interface traits and changes nothing else |
| Generator.SkipInterfaceTraitList | com-scrape/src/generator.rs:86-91 | after `skip_interface_traits` a trait is skipped exactly when it was skipped before or is listed; nothing else changes |
| Generator.SetConstantParser | com-scrape/src/generator.rs:93-99 | `constant_parser` installs the given callback, replacing any earlier one, and changes nothing else |
| Generator.SetIidGenerator | com-scrape/src/generator.rs:101-107 | `iid_generator` installs the given callback, replacing any earlier one, and changes nothing else |
| Generator.SetQueryInterfaceFn | com-scrape/src/generator.rs:109-112 | `query_interface_fn` sets the name, replacing any earlier one, and changes nothing else |
| Generator.SetAddRefFn | com-scrape/src/generator.rs:114-117 | `add_ref_fn` sets the name, replacing any earlier one, and changes nothing else |
| Generator.SetReleaseFn | com-scrape/src/generator.rs:119-122 | `release_fn` sets the name, replacing any earlier one, and changes nothing else |
| Generator.SetSource | com-scrape/src/generator.rs:124-127 | `source` replaces the header text and changes nothing else |
| Generator.BuildIncludePaths | com-scrape/src/generator.rs:62-65 | after any sequence of builder calls, the include paths are exactly those the calls named, in call order, duplicates kept |
| Generator.BuildSkipTypes | com-scrape/src/generator.rs:67-77 | after any sequence of builder calls, a type is skipped exactly when some call named it |
| Generator.BuildSkipInterfaceTraits | com-scrape/src/generator.rs:79-91 | after any sequence of builder calls, an interface trait is skipped exactly when some call named it |
| Generator.BuildLastWins | com-scrape/src/generator.rs:93-127 | after any sequence of builder calls, each hook and the source hold what the last call setting them gave, or the default when none did |
| Generator.SkipTypesIsRepeatedSkipType | com-scrape/src/generator.rs:67-77 | `skip_types(names)` has the same effect as one `skip_type` per name |
| Generator.SkipInterfaceTraitsIsRepeated | com-scrape/src/generator.rs:79-91 | `skip_interface_traits(names)` has the same effect as one `skip_interface_trait` per name |

## Left out

- Atomic reference counting and threads, including `Send`/`Sync` for `ComWrapper`: the model is sequential.
- Wrapper.AddRef: does not model the abort `Arc` performs when the strong count would overflow `usize`; the count is unbounded.
- Wrapper.Release: releasing a reference that is not held, or releasing an allocation that is already freed, is undefined in the source, because `release` is an `unsafe fn`. The model makes both a precondition, and `Step` answers None for them.
- `Interface::inherits` has no body in com-scrape-types/src/lib.rs:20-29; the generated bindings supply it. `Types.Inherits` assumes it accepts the interface's own `IID` and otherwise whatever its base interface accepts.
- Real layout, alignment and padding: offsets and sizes are abstract. `ComWrapperInner` is `repr(C)`, but `__Header` is not, so the compiler picks its field order and the model allows any order. `ValidClass` constrains the layouts as follows: offsets are non-negative, fields are pairwise disjoint, every header field is non-empty (interface structs hold a vtable pointer, so they are never zero-sized), every header field lies inside the header, and `ComWrapperInner` has exactly two fields.
- The bodies of `Construct::OBJ`, that is the generated vtables and thunks: they are generated elsewhere. `ThunkThis` models only the address the thunk recovers: the interface pointer, back by the sub-object's offset, then `data_from_header`.
- `ComPtr` and `ComRef` internals (com-scrape-types/src/ptr.rs is not part of this model). An owned pointer is a hold on the allocation, and dropping it is a `release`.
- The `impl_interface!` macro, the `FUnknown` vtable calls in src/lib.rs and the generated bindings pulled in with `include!`: they are generated code.
- Everything in `generate` after the target choice: loading libclang, parsing, and printing the bindings (gen/clang.rs is not part of this model).
- `env::var("TARGET")` is a parameter of `ClangTarget`. A missing or non-Unicode value is None. `HOST_TARGET`, read from a build-script file, is a parameter too.
- What the user closures given to `constant_parser` and `iid_generator` compute: they are opaque tokens, so only which closure was installed is modelled.
- Paths are strings; `AsRef<Path>` conversion and path normalisation are not modelled.

=== FILE: class.dfy ===
/**
 * What `impl_class!(C: I1 + ... + In)` generates, and the address arithmetic
 * of `ComWrapper` (com-scrape-types/src/class.rs).
 *
 * One allocation, `ComWrapperInner<C>`, holds the generated header (one
 * sub-object per declared interface, at offsets the compiler chooses) followed
 * by the data. Moving between a data pointer, the header and any interface
 * sub-object is adding or subtracting per-class constants.
 */
module Class {
  import opened Options
  import opened Types
  import opened Layout

  /** `ComWrapperInner<C>` is `#[repr(C)] { header, data }`. */
  const HeaderField: nat := 0
  const DataField: nat := 1

  /**
   * An implementing type after `impl_class!`: its interfaces in declaration
   * order, the layout of the generated `__Header` (field k holds interface k,
   * wherever the compiler puts it),
   * and the layout of `ComWrapperInner<C>`.
   */
  datatype Class = Class(interfaces: seq<Interface>, header: StructLayout, inner: StructLayout)

  /**
   * What the macro and the compiler guarantee: at least one interface (the
   * macro's grammar demands one), no interface named twice (it would be a
   * duplicate field of `__Header`), one non-empty header field per interface,
   * each lying inside the header, and a two-field wrapper.
   */
  predicate ValidClass(c: Class)
  {
    && |c.interfaces| >= 1
    && (forall j, k :: 0 <= j < k < |c.interfaces| ==> c.interfaces[j].name != c.interfaces[k].name)
    && WellFormed(c.header) && c.header.Fields() == |c.interfaces| && NoEmptyFields(c.header)
    && WellFormed(c.inner) && c.inner.Fields() == 2
    && (forall k :: 0 <= k < c.header.Fields() ==>
          c.header.offsets[k] + c.header.sizes[k] <= c.inner.sizes[HeaderField])
  }

  /**
   * `<C as Implements<I_k>>::OFFSET = offset_of!(__Header, I_k)`: where the
   * sub-object of interface k sits within the header. It lies inside the header
   * and no other interface shares it.
   */
  function ImplementsOffset(c: Class, k: nat): (r: int)
    requires ValidClass(c) && k < |c.interfaces|
    ensures 0 <= r && r + c.header.sizes[k] <= c.inner.sizes[HeaderField]
    ensures forall j :: 0 <= j < |c.interfaces| && j != k ==> OffsetOf(c.header, j) != r
  {
    DistinctOffsets(c.header, k);
    OffsetOf(c.header, k)
  }

  /** `offset_of!(ComWrapperInner<C>, header)`. */
  function HeaderOffset(c: Class): int
    requires ValidClass(c)
  {
    OffsetOf(c.inner, HeaderField)
  }

  /** `offset_of!(ComWrapperInner<C>, data)`. */
  function DataOffset(c: Class): int
    requires ValidClass(c)
  {
    OffsetOf(c.inner, DataField)
  }

  /** `Deref`: the data of the allocation at `w`. */
  function DataAddress(c: Class, w: int): int
    requires ValidClass(c)
  {
    FieldAddress(c.inner, w, DataField)
  }

  /** `wrapper_from_data`: the allocation whose data field is at `p`. */
  function WrapperFromData(c: Class, p: int): (w: int)
    requires ValidClass(c)
    ensures DataAddress(c, w) == p
  {
    p - DataOffset(c)
  }

  /** `header_from_data`: the header of the allocation whose data is at `p`. */
  function HeaderFromData(c: Class, p: int): (h: int)
    requires ValidClass(c)
    ensures h == FieldAddress(c.inner, WrapperFromData(c, p), HeaderField)
  {
    p - DataOffset(c) + HeaderOffset(c)
  }

  /**
   * `data_from_header`: the data of the allocation whose header is at `h`;
   * `header_from_data` takes it straight back to `h`.
   */
  function DataFromHeader(c: Class, h: int): (p: int)
    requires ValidClass(c)
    ensures p == DataAddress(c, h - HeaderOffset(c))
    ensures HeaderFromData(c, p) == h
  {
    h - HeaderOffset(c) + DataOffset(c)
  }

  /** `interface_from_wrapper::<I_k>`: field k of the header of the allocation at `w`. */
  function InterfaceFromWrapper(c: Class, w: int, k: nat): (p: int)
    requires ValidClass(c) && k < |c.interfaces|
    ensures p == FieldAddress(c.header, FieldAddress(c.inner, w, HeaderField), k)
  {
    w + HeaderOffset(c) + ImplementsOffset(c, k)
  }

  /**
   * The pointer `query_interface` returns for interface k, computed from the
   * data pointer; it is the one `as_com_ref`/`to_com_ptr` compute from the
   * allocation itself.
   */
  function QueryPointer(c: Class, data: int, k: nat): (p: int)
    requires ValidClass(c) && k < |c.interfaces|
    ensures p == InterfaceFromWrapper(c, WrapperFromData(c, data), k)
  {
    HeaderFromData(c, data) + ImplementsOffset(c, k)
  }

  /** `data_from_header` and `header_from_data` undo each other. */
  lemma HeaderDataRoundTrip(c: Class, p: int, h: int)
    requires ValidClass(c)
    ensures DataFromHeader(c, HeaderFromData(c, p)) == p
    ensures HeaderFromData(c, DataFromHeader(c, h)) == h
  {
  }

  /**
   * The value a header field starts with, `<I as Construct<C, OFFSET>>::OBJ`:
   * the interface's vtable built for this class and for the field's offset.
   */
  datatype SubObject = SubObject(iface: Interface, offset: int)

  /** `Class::HEADER`: every field built for its own interface and its own offset. */
  function Header(c: Class): (h: seq<SubObject>)
    requires ValidClass(c)
    ensures |h| == |c.interfaces|
    ensures forall k :: 0 <= k < |h| ==> h[k].iface == c.interfaces[k]
    ensures forall k :: 0 <= k < |h| ==> h[k].offset == OffsetOf(c.header, k)
  {
    seq(|c.interfaces|, k requires 0 <= k < |c.interfaces| => SubObject(c.interfaces[k], ImplementsOffset(c, k)))
  }

  /**
   * The `this` a vtable method built with offset `sub.offset` hands to the
   * class's code when called on interface pointer `p`: back by the offset to
   * the header, then over to the data.
   */
  function ThunkThis(c: Class, sub: SubObject, p: int): int
    requires ValidClass(c)
  {
    DataFromHeader(c, p - sub.offset)
  }

  /**
   * Every interface view of an allocation leads back to that allocation's data:
   * calling through sub-object k of the header, at the address
   * `interface_from_wrapper` gives, reaches the data `Deref` gives.
   */
  lemma AllViewsReachData(c: Class, w: int, k: nat)
    requires ValidClass(c) && k < |c.interfaces|
    ensures ThunkThis(c, Header(c)[k], InterfaceFromWrapper(c, w, k)) == DataAddress(c, w)
  {
  }

  /**
   * The sub-objects of an allocation do not overlap each other or the data:
   * writing through one interface view cannot touch another view or the data.
   */
  lemma SubObjectsDisjoint(c: Class, w: int, j: nat, k: nat)
    requires ValidClass(c) && j < |c.interfaces| && k < |c.interfaces|
    ensures var p := InterfaceFromWrapper(c, w, k);
      p + c.header.sizes[k] <= DataAddress(c, w) || DataAddress(c, w) + c.inner.sizes[DataField] <= p
    ensures j != k ==> var p := InterfaceFromWrapper(c, w, j); var q := InterfaceFromWrapper(c, w, k);
      p + c.header.sizes[j] <= q || q + c.header.sizes[k] <= p
  {
    assert Disjoint(c.inner, HeaderField, DataField);
    if j != k {
      assert Disjoint(c.header, j, k);
    }
  }

  /**
   * The interface `query_interface` answers for: the first one at or after
   * position `from`, in declaration order, whose `inherits` accepts `iid`; None
   * when no declared interface accepts it.
   */
  function FirstMatch(interfaces: seq<Interface>, iid: Guid, from: nat): (r: Option<nat>)
    requires from <= |interfaces|
    decreases |interfaces| - from
    ensures r.Some? ==> from <= r.value < |interfaces| && Inherits(interfaces[r.value], iid)
    ensures r.Some? ==> forall j :: from <= j < r.value ==> !Inherits(interfaces[j], iid)
    ensures r.None? <==> forall j :: from <= j < |interfaces| ==> !Inherits(interfaces[j], iid)
  {
    if from == |interfaces| then None
    else if Inherits(interfaces[from], iid) then Some(from)
    else FirstMatch(interfaces, iid, from + 1)
  }

  /** When two declared interfaces both accept `iid`, the earlier declaration wins. */
  lemma FirstDeclaredWins(c: Class, iid: Guid, j: nat, k: nat)
    requires ValidClass(c) && j < k < |c.interfaces|
    requires Inherits(c.interfaces[j], iid) && Inherits(c.interfaces[k], iid)
    ensures FirstMatch(c.interfaces, iid, 0) != Some(k)
  {
  }
}

=== FILE: generator.dfy ===
/**
 * The configuration side of the bindings generator (com-scrape/src/generator.rs):
 * translating a rustc target triple to clang's spelling, choosing whether to
 * pass clang a target at all, and the `Generator` builder. Loading libclang,
 * parsing headers and printing bindings are not modelled.
 */
module Generator {
  import opened Options

  /** rustc's spelling of the 64-bit Arm Apple targets, and clang's. */
  const RustAppleArm: string := "aarch64-apple-"
  const ClangAppleArm: string := "arm64-apple-"

  /** `str::starts_with`. */
  predicate StartsWith(s: string, prefix: string)
  {
    |prefix| <= |s| && s[..|prefix|] == prefix
  }

  /**
   * `rust_to_clang_target`: a leading `aarch64-apple-` becomes `arm64-apple-`
   * and the rest of the triple is kept verbatim; any other triple is returned
   * unchanged. No result starts with `aarch64-apple-`.
   */
  function RustToClangTarget(t: string): (r: string)
    ensures StartsWith(t, RustAppleArm) ==>
      StartsWith(r, ClangAppleArm) && r[|ClangAppleArm|..] == t[|RustAppleArm|..] && |r| == |t| - 2
    ensures !StartsWith(t, RustAppleArm) ==> r == t
    ensures !StartsWith(r, RustAppleArm)
  {
    if StartsWith(t, RustAppleArm) then
      var r := ClangAppleArm + t[|RustAppleArm|..];
      assert r[1] == 'r' != RustAppleArm[1];
      r
    else t
  }

  /** Translating twice is translating once. */
  lemma RustToClangTargetIdempotent(t: string)
    ensures RustToClangTarget(RustToClangTarget(t)) == RustToClangTarget(t)
  {
  }

  /** The translation loses nothing: putting rustc's prefix back gives the original triple. */
  lemma RustToClangTargetReversible(t: string)
    requires StartsWith(t, RustAppleArm)
    ensures RustAppleArm + RustToClangTarget(t)[|ClangAppleArm|..] == t
  {
    assert t == t[..|RustAppleArm|] + t[|RustAppleArm|..];
  }

  /**
   * The target choice at the start of `generate`. `target` is the `TARGET`
   * environment variable (None when it is unset or not Unicode), `host` the
   * triple recorded for the host at build time. clang is given a target only
   * when one is set and it is not the host, and then in clang's spelling.
   */
  function ClangTarget(target: Option<string>, host: string): (r: Option<string>)
    ensures r.Some? <==> target.Some? && target.value != host
    ensures r.Some? ==> r.value == RustToClangTarget(target.value)
  {
    match target
    case None => None
    case Some(t) => if t != host then Some(RustToClangTarget(t)) else None
  }

  /** A user callback (`constant_parser`, `iid_generator`); only which one was given is modelled. */
  datatype Callback = Callback(id: nat)

  /** `GeneratorOptions`. */
  datatype GeneratorOptions = GeneratorOptions(
    includePaths: seq<string>,
    skipTypes: set<string>,
    skipInterfaceTraits: set<string>,
    constantParser: Option<Callback>,
    iidGenerator: Option<Callback>,
    queryInterfaceFn: Option<string>,
    addRefFn: Option<string>,
    releaseFn: Option<string>)

  /** `Generator`: the options and the header source to parse. */
  datatype Generator = Generator(options: GeneratorOptions, source: string)

  /** The fields of a generator, to say which one a builder call changes. */
  datatype Field =
    | IncludePaths | SkipTypes | SkipInterfaceTraits | ConstantParser | IidGenerator
    | QueryInterfaceFn | AddRefFn | ReleaseFn | Source

  /** `g` and `h` agree on field `f`. */
  predicate Agree(g: Generator, h: Generator, f: Field)
  {
    match f
    case IncludePaths => g.options.includePaths == h.options.includePaths
    case SkipTypes => g.options.skipTypes == h.options.skipTypes
    case SkipInterfaceTraits => g.options.skipInterfaceTraits == h.options.skipInterfaceTraits
    case ConstantParser => g.options.constantParser == h.options.constantParser
    case IidGenerator => g.options.iidGenerator == h.options.iidGenerator
    case QueryInterfaceFn => g.options.queryInterfaceFn == h.options.queryInterfaceFn
    case AddRefFn => g.options.addRefFn == h.options.addRefFn
    case ReleaseFn => g.options.releaseFn == h.options.releaseFn
    case Source => g.source == h.source
  }

  /** `h` is `g` with at most field `f` changed. */
  predicate OnlyChanged(g: Generator, h: Generator, f: Field)
  {
    forall f' :: f' != f ==> Agree(g, h, f')
  }

  /** `GeneratorOptions::default`: nothing included, nothing skipped, no hooks. */
  function DefaultOptions(): (o: GeneratorOptions)
    ensures o.includePaths == [] && o.skipTypes == {} && o.skipInterfaceTraits == {}
    ensures o.constantParser.None? && o.iidGenerator.None?
    ensures o.queryInterfaceFn.None? && o.addRefFn.None? && o.releaseFn.None?
  {
    GeneratorOptions([], {}, {}, None, None, None, None, None)
  }

  /** `Generator::new`: default options and an empty source. */
  function New(): (g: Generator)
    ensures g.options == DefaultOptions() && g.source == ""
  {
    Generator(DefaultOptions(), "")
  }

  /** `include_path`: one more include path, at the end. */
  function IncludePath(g: Generator, path: string): (r: Generator)
    ensures r.options.includePaths == g.options.includePaths + [path]
    ensures OnlyChanged(g, r, IncludePaths)
  {
    g.(options := g.options.(includePaths := g.options.includePaths + [path]))
  }

  /** `skip_type`: one more type name to skip. */
  function SkipType(g: Generator, name: string): (r: Generator)
    ensures r.options.skipTypes == g.options.skipTypes + {name}
    ensures OnlyChanged(g, r, SkipTypes)
  {
    g.(options := g.options.(skipTypes := g.options.skipTypes + {name}))
  }

  /** `skip_types`: every listed type name is added to the skipped ones. */
  function SkipTypeList(g: Generator, names: seq<string>): (r: Generator)
    ensures forall n :: n in r.options.skipTypes <==> n in g.options.skipTypes || n in names
    ensures OnlyChanged(g, r, SkipTypes)
  {
    g.(options := g.options.(skipTypes := g.options.skipTypes + set n | n in names))
  }

  /** `skip_interface_trait`: one more interface whose trait is not generated. */
  function SkipInterfaceTrait(g: Generator, name: string): (r: Generator)
    ensures r.options.skipInterfaceTraits == g.options.skipInterfaceTraits + {name}
    ensures OnlyChanged(g, r, SkipInterfaceTraits)
  {
    g.(options := g.options.(skipInterfaceTraits := g.options.skipInterfaceTraits + {name}))
  }

  /** `skip_interface_traits`: every listed interface is added to the skipped ones. */
  function SkipInterfaceTraitList(g: Generator, names: seq<string>): (r: Generator)
    ensures forall n :: n in r.options.skipInterfaceTraits <==> n in g.options.skipInterfaceTraits || n in names
    ensures OnlyChanged(g, r, SkipInterfaceTraits)
  {
    g.(options := g.options.(skipInterfaceTraits := g.options.skipInterfaceTraits + set n | n in names))
  }

  /** `constant_parser`: installs the callback, replacing any earlier one. */
  function SetConstantParser(g: Generator, f: Callback): (r: Generator)
    ensures r.options.constantParser == Some(f)
    ensures OnlyChanged(g, r, ConstantParser)
  {
    g.(options := g.options.(constantParser := Some(f)))
  }

  /** `iid_generator`: installs the callback, replacing any earlier one. */
  function SetIidGenerator(g: Generator, f: Callback): (r: Generator)
    ensures r.options.iidGenerator == Some(f)
    ensures OnlyChanged(g, r, IidGenerator)
  {
    g.(options := g.options.(iidGenerator := Some(f)))
  }

  /** `query_interface_fn`: names the function, replacing any earlier name. */
  function SetQueryInterfaceFn(g: Generator, name: string): (r: Generator)
    ensures r.options.queryInterfaceFn == Some(name)
    ensures OnlyChanged(g, r, QueryInterfaceFn)
  {
    g.(options := g.options.(queryInterfaceFn := Some(name)))
  }

  /** `add_ref_fn`: names the function, replacing any earlier name. */
  function SetAddRefFn(g: Generator, name: string): (r: Generator)
    ensures r.options.addRefFn == Some(name)
    ensures OnlyChanged(g, r, AddRefFn)
  {
    g.(options := g.options.(addRefFn := Some(name)))
  }

  /** `release_fn`: names the function, replacing any earlier name. */
  function SetReleaseFn(g: Generator, name: string): (r: Generator)
    ensures r.options.releaseFn == Some(name)
    ensures OnlyChanged(g, r, ReleaseFn)
  {
    g.(options := g.options.(releaseFn := Some(name)))
  }

  /** `source`: replaces the header source. */
  function SetSource(g: Generator, text: string): (r: Generator)
    ensures r.source == text
    ensures OnlyChanged(g, r, Source)
  {
    g.(source := text)
  }

  /** One call of a builder method. */
  datatype Call =
    | IncludePathCall(path: string)
    | SkipTypeCall(name: string)
    | SkipTypesCall(names: seq<string>)
    | SkipInterfaceTraitCall(name: string)
    | SkipInterfaceTraitsCall(names: seq<string>)
    | ConstantParserCall(f: Callback)
    | IidGeneratorCall(f: Callback)
    | QueryInterfaceFnCall(name: string)
    | AddRefFnCall(name: string)
    | ReleaseFnCall(name: string)
    | SourceCall(text: string)

  /** Applies one builder call. */
  function Apply(g: Generator, call: Call): Generator
  {
    match call
    case IncludePathCall(p) => IncludePath(g, p)
    case SkipTypeCall(n) => SkipType(g, n)
    case SkipTypesCall(ns) => SkipTypeList(g, ns)
    case SkipInterfaceTraitCall(n) => SkipInterfaceTrait(g, n)
    case SkipInterfaceTraitsCall(ns) => SkipInterfaceTraitList(g, ns)
    case ConstantParserCall(f) => SetConstantParser(g, f)
    case IidGeneratorCall(f) => SetIidGenerator(g, f)
    case QueryInterfaceFnCall(n) => SetQueryInterfaceFn(g, n)
    case AddRefFnCall(n) => SetAddRefFn(g, n)
    case ReleaseFnCall(n) => SetReleaseFn(g, n)
    case SourceCall(t) => SetSource(g, t)
  }

  /** `Generator::new()` followed by the builder calls, in order. */
  function Build(calls: seq<Call>): Generator
    decreases |calls|
  {
    if calls == [] then New() else Apply(Build(calls[..|calls| - 1]), calls[|calls| - 1])
  }

  /** The include paths the calls name, in call order. */
  function IncludedPaths(calls: seq<Call>): seq<string>
    decreases |calls|
  {
    if calls == [] then []
    else (if calls[0].IncludePathCall? then [calls[0].path] else []) + IncludedPaths(calls[1..])
  }

  /** The type names a call asks to skip. */
  function TypeNames(call: Call): seq<string>
  {
    match call
    case SkipTypeCall(n) => [n]
    case SkipTypesCall(ns) => ns
    case _ => []
  }

  /** The interface names a call asks to skip the trait of. */
  function TraitNames(call: Call): seq<string>
  {
    match call
    case SkipInterfaceTraitCall(n) => [n]
    case SkipInterfaceTraitsCall(ns) => ns
    case _ => []
  }

  /** What the last call for which `pick` gives a value gave; None when no call did. */
  function Last<T>(calls: seq<Call>, pick: Call -> Option<T>): Option<T>
    decreases |calls|
  {
    if calls == [] then None
    else
      match pick(calls[|calls| - 1])
      case Some(v) => Some(v)
      case None => Last(calls[..|calls| - 1], pick)
  }

  /** `Last` picks out a call that gives a value and after which no call does; None means no call does. */
  lemma {:induction false} LastIsLast<T>(calls: seq<Call>, pick: Call -> Option<T>)
    decreases |calls|
    ensures Last(calls, pick).Some? ==> exists i :: (0 <= i < |calls| && pick(calls[i]) == Last(calls, pick)
      && forall j :: i < j < |calls| ==> pick(calls[j]).None?)
    ensures Last(calls, pick).None? ==> forall i :: 0 <= i < |calls| ==> pick(calls[i]).None?
  {
    if calls != [] {
      var init := calls[..|calls| - 1];
      LastIsLast(init, pick);
      assert forall i :: 0 <= i < |init| ==> init[i] == calls[i];
      if pick(calls[|calls| - 1]).None? && Last(init, pick).Some? {
        var i :| 0 <= i < |init| && pick(init[i]) == Last(init, pick)
          && forall j :: i < j < |init| ==> pick(init[j]).None?;
        assert pick(calls[i]) == Last(calls, pick);
      }
    }
  }

  /**
   * What one builder call sets for each last-wins field: the closure or name it
   * installs when it is that field's setter, and None for every other call.
   */
  function PickConstantParser(call: Call): Option<Callback> { if call.ConstantParserCall? then Some(call.f) else None }
  function PickIidGenerator(call: Call): Option<Callback> { if call.IidGeneratorCall? then Some(call.f) else None }
  function PickQueryInterfaceFn(call: Call): Option<string> { if call.QueryInterfaceFnCall? then Some(call.name) else None }
  function PickAddRefFn(call: Call): Option<string> { if call.AddRefFnCall? then Some(call.name) else None }
  function PickReleaseFn(call: Call): Option<string> { if call.ReleaseFnCall? then Some(call.name) else None }
  function PickSource(call: Call): Option<string> { if call.SourceCall? then Some(call.text) else None }

  /** After any sequence of builder calls, the include paths are those the calls named, in call order. */
  lemma {:induction false} BuildIncludePaths(calls: seq<Call>)
    decreases |calls|
    ensures Build(calls).options.includePaths == IncludedPaths(calls)
  {
    if calls != [] {
      var init := calls[..|calls| - 1];
      var last := calls[|calls| - 1];
      BuildIncludePaths(init);
      IncludedPathsSnoc(init, last);
      assert init + [last] == calls;
    }
  }

  /** One builder call adds the names it lists to the skipped types and interface traits. */
  lemma ApplySkips(g: Generator, call: Call)
    ensures forall n :: n in Apply(g, call).options.skipTypes <==> n in g.options.skipTypes || n in TypeNames(call)
    ensures forall n :: n in Apply(g, call).options.skipInterfaceTraits <==>
      n in g.options.skipInterfaceTraits || n in TraitNames(call)
  {
  }

  /** One builder call replaces a hook or the source exactly when it sets it. */
  lemma ApplyReplaces(g: Generator, call: Call)
    ensures Apply(g, call).options.constantParser == if PickConstantParser(call).Some? then PickConstantParser(call) else g.options.constantParser
    ensures Apply(g, call).options.iidGenerator == if PickIidGenerator(call).Some? then PickIidGenerator(call) else g.options.iidGenerator
    ensures Apply(g, call).options.queryInterfaceFn == if PickQueryInterfaceFn(call).Some? then PickQueryInterfaceFn(call) else g.options.queryInterfaceFn
    ensures Apply(g, call).options.addRefFn == if PickAddRefFn(call).Some? then PickAddRefFn(call) else g.options.addRefFn
    ensures Apply(g, call).options.releaseFn == if PickReleaseFn(call).Some? then PickReleaseFn(call) else g.options.releaseFn
    ensures Apply(g, call).source == PickSource(call).GetOr(g.source)
  {
  }

  /** After any sequence of builder calls, a type is skipped exactly when some call asked for it. */
  lemma {:induction false} BuildSkipTypes(calls: seq<Call>)
    decreases |calls|
    ensures forall n :: n in Build(calls).options.skipTypes <==>
      exists i :: 0 <= i < |calls| && n in TypeNames(calls[i])
  {
    if calls != [] {
      var init := calls[..|calls| - 1];
      var last := calls[|calls| - 1];
      BuildSkipTypes(init);
      assert Build(calls) == Apply(Build(init), last);
      ApplySkips(Build(init), last);
      forall n
        ensures n in Build(calls).options.skipTypes <==> exists i :: 0 <= i < |calls| && n in TypeNames(calls[i])
      {
        if exists i :: 0 <= i < |calls| && n in TypeNames(calls[i]) {
          var i :| 0 <= i < |calls| && n in TypeNames(calls[i]);
          if i < |init| {
            assert init[i] == calls[i];
          }
        }
        if exists i :: 0 <= i < |init| && n in TypeNames(init[i]) {
          var i :| 0 <= i < |init| && n in TypeNames(init[i]);
          assert init[i] == calls[i];
        }
      }
    }
  }

  /** After any sequence of builder calls, an interface's trait is skipped exactly when some call asked for it. */
  lemma {:induction false} BuildSkipInterfaceTraits(calls: seq<Call>)
    decreases |calls|
    ensures forall n :: n in Build(calls).options.skipInterfaceTraits <==>
      exists i :: 0 <= i < |calls| && n in TraitNames(calls[i])
  {
    if calls != [] {
      var init := calls[..|calls| - 1];
      var last := calls[|calls| - 1];
      BuildSkipInterfaceTraits(init);
      assert Build(calls) == Apply(Build(init), last);
      ApplySkips(Build(init), last);
      forall n
        ensures n in Build(calls).options.skipInterfaceTraits <==> exists i :: 0 <= i < |calls| && n in TraitNames(calls[i])
      {
        if exists i :: 0 <= i < |calls| && n in TraitNames(calls[i]) {
          var i :| 0 <= i < |calls| && n in TraitNames(calls[i]);
          if i < |init| {
            assert init[i] == calls[i];
          }
        }
        if exists i :: 0 <= i < |init| && n in TraitNames(init[i]) {
          var i :| 0 <= i < |init| && n in TraitNames(init[i]);
          assert init[i] == calls[i];
        }
      }
    }
  }

  /**
   * After any sequence of builder calls, each hook and the source hold what
   * the last call setting them gave, or their defaults when no call did.
   */
  lemma {:induction false} BuildLastWins(calls: seq<Call>)
    decreases |calls|
    ensures Build(calls).options.constantParser == Last(calls, PickConstantParser)
    ensures Build(calls).options.iidGenerator == Last(calls, PickIidGenerator)
    ensures Build(calls).options.queryInterfaceFn == Last(calls, PickQueryInterfaceFn)
    ensures Build(calls).options.addRefFn == Last(calls, PickAddRefFn)
    ensures Build(calls).options.releaseFn == Last(calls, PickReleaseFn)
    ensures Build(calls).source == Last(calls, PickSource).GetOr("")
  {
    if calls != [] {
      var init := calls[..|calls| - 1];
      var last := calls[|calls| - 1];
      BuildLastWins(init);
      assert Build(calls) == Apply(Build(init), last);
      ApplyReplaces(Build(init), last);
    }
  }

  /** Include paths of calls with one more call at the end. */
  lemma {:induction false} IncludedPathsSnoc(calls: seq<Call>, call: Call)
    decreases |calls|
    ensures IncludedPaths(calls + [call]) == IncludedPaths(calls) + (if call.IncludePathCall? then [call.path] else [])
  {
    if calls != [] {
      assert (calls + [call])[1..] == calls[1..] + [call];
      IncludedPathsSnoc(calls[1..], call);
    } else {
      assert [call][1..] == [];
    }
  }

  /** Building with one more call applies that call to what the others built. */
  lemma BuildSnoc(calls: seq<Call>, call: Call)
    ensures Build(calls + [call]) == Apply(Build(calls), call)
  {
    assert (calls + [call])[..|calls|] == calls;
  }

  /** One `skip_type` call per name. */
  function SkipTypeCalls(names: seq<string>): (r: seq<Call>)
    ensures |r| == |names| && forall i :: 0 <= i < |names| ==> r[i] == SkipTypeCall(names[i])
  {
    seq(|names|, i requires 0 <= i < |names| => SkipTypeCall(names[i]))
  }

  /** One `skip_interface_trait` call per name. */
  function SkipInterfaceTraitCalls(names: seq<string>): (r: seq<Call>)
    ensures |r| == |names| && forall i :: 0 <= i < |names| ==> r[i] == SkipInterfaceTraitCall(names[i])
  {
    seq(|names|, i requires 0 <= i < |names| => SkipInterfaceTraitCall(names[i]))
  }

  /** Naming one more entry after a list is naming the longer list. */
  lemma SkipTypeListSnoc(g: Generator, names: seq<string>)
    requires names != []
    ensures SkipType(SkipTypeList(g, names[..|names| - 1]), names[|names| - 1]) == SkipTypeList(g, names)
  {
    var init, last := names[..|names| - 1], names[|names| - 1];
    assert names == init + [last];
    assert (set n | n in names) == (set n | n in init) + {last};
  }

  /** The calls for a non-empty list are those for all but its last name, then one for the last. */
  lemma SkipTypeCallsSnoc(calls: seq<Call>, names: seq<string>)
    requires names != []
    ensures calls + SkipTypeCalls(names) ==
      (calls + SkipTypeCalls(names[..|names| - 1])) + [SkipTypeCall(names[|names| - 1])]
  {
    assert SkipTypeCalls(names) == SkipTypeCalls(names[..|names| - 1]) + [SkipTypeCall(names[|names| - 1])];
  }

  /** `skip_types(names)` has the same effect as `skip_type` once per name, in order. */
  lemma {:induction false} SkipTypesIsRepeatedSkipType(calls: seq<Call>, names: seq<string>)
    decreases |names|
    ensures Build(calls + SkipTypeCalls(names)) == SkipTypeList(Build(calls), names)
  {
    var g := Build(calls);
    if names == [] {
      assert calls + SkipTypeCalls(names) == calls;
      assert (set n | n in names) == {};
      assert SkipTypeList(g, names).options == g.options;
    } else {
      var init := names[..|names| - 1];
      var last := names[|names| - 1];
      SkipTypesIsRepeatedSkipType(calls, init);
      var cs := calls + SkipTypeCalls(init);
      SkipTypeCallsSnoc(calls, names);
      BuildSnoc(cs, SkipTypeCall(last));
      SkipTypeListSnoc(g, names);
    }
  }

  /** Naming one more entry after a list is naming the longer list. */
  lemma SkipInterfaceTraitListSnoc(g: Generator, names: seq<string>)
    requires names != []
    ensures SkipInterfaceTrait(SkipInterfaceTraitList(g, names[..|names| - 1]), names[|names| - 1]) == SkipInterfaceTraitList(g, names)
  {
    var init, last := names[..|names| - 1], names[|names| - 1];
    assert names == init + [last];
    assert (set n | n in names) == (set n | n in init) + {last};
  }

  /** The calls for a non-empty list are those for all but its last name, then one for the last. */
  lemma SkipInterfaceTraitCallsSnoc(calls: seq<Call>, names: seq<string>)
    requires names != []
    ensures calls + SkipInterfaceTraitCalls(names) ==
      (calls + SkipInterfaceTraitCalls(names[..|names| - 1])) + [SkipInterfaceTraitCall(names[|names| - 1])]
  {
    assert SkipInterfaceTraitCalls(names) == SkipInterfaceTraitCalls(names[..|names| - 1]) + [SkipInterfaceTraitCall(names[|names| - 1])];
  }

  /** `skip_interface_traits(names)` has the same effect as `skip_interface_trait` once per name, in order. */
  lemma {:induction false} SkipInterfaceTraitsIsRepeated(calls: seq<Call>, names: seq<string>)
    decreases |names|
    ensures Build(calls + SkipInterfaceTraitCalls(names)) == SkipInterfaceTraitList(Build(calls), names)
  {
    var g := Build(calls);
    if names == [] {
      assert calls + SkipInterfaceTraitCalls(names) == calls;
      assert (set n | n in names) == {};
      assert SkipInterfaceTraitList(g, names).options == g.options;
    } else {
      var init := names[..|names| - 1];
      var last := names[|names| - 1];
      SkipInterfaceTraitsIsRepeated(calls, init);
      var cs := calls + SkipInterfaceTraitCalls(init);
      SkipInterfaceTraitCallsSnoc(calls, names);
      BuildSnoc(cs, SkipInterfaceTraitCall(last));
      SkipInterfaceTraitListSnoc(g, names);
    }
  }
}

=== FILE: layout.dfy ===
/**
 * Struct layouts and `offset_of!` (com-scrape-types/src/class.rs).
 *
 * Addresses are integers. The compiler's choice of field placement is not
 * modelled; a layout is whatever offsets and sizes the compiler fixed, subject
 * only to what every layout satisfies: offsets are non-negative and no two
 * fields overlap.
 */
module Layout {

  /** The byte offset and the size of each field of a struct, in declaration order. */
  datatype StructLayout = StructLayout(offsets: seq<int>, sizes: seq<nat>)
  {
    /** The number of fields. */
    function Fields(): nat
    {
      |offsets|
    }
  }

  /** Fields `f` and `g` occupy disjoint byte ranges. */
  predicate Disjoint(l: StructLayout, f: nat, g: nat)
    requires f < |l.offsets| && g < |l.offsets| && |l.sizes| == |l.offsets|
  {
    l.offsets[f] + l.sizes[f] <= l.offsets[g] || l.offsets[g] + l.sizes[g] <= l.offsets[f]
  }

  /** What every layout the compiler produces satisfies. */
  predicate WellFormed(l: StructLayout)
  {
    && |l.sizes| == |l.offsets|
    && (forall f :: 0 <= f < |l.offsets| ==> 0 <= l.offsets[f])
    && (forall f, g :: 0 <= f < |l.offsets| && 0 <= g < |l.offsets| && f != g ==> Disjoint(l, f, g))
  }

  /** Every field occupies at least one byte. */
  predicate NoEmptyFields(l: StructLayout)
    requires WellFormed(l)
  {
    forall f :: 0 <= f < |l.sizes| ==> l.sizes[f] > 0
  }

  /** The address of field `f` of a struct placed at `base`: `addr_of!((*base).f)`. */
  function FieldAddress(l: StructLayout, base: int, f: nat): int
    requires f < |l.offsets|
  {
    base + l.offsets[f]
  }

  /**
   * `offset_of!(S, f)`: take the address of field `f` of an uninitialised
   * struct and subtract the struct's own address. The result does not depend on
   * where that dummy struct happens to live: for every base address it is the
   * distance from the base to the field.
   */
  function OffsetOf(l: StructLayout, f: nat): (r: int)
    requires WellFormed(l) && f < l.Fields()
    ensures 0 <= r
    ensures forall base :: FieldAddress(l, base, f) - base == r
  {
    var dummy := 0;
    FieldAddress(l, dummy, f) - dummy
  }

  /** In a layout whose fields are all non-empty, no other field shares the offset of field `f`. */
  lemma DistinctOffsets(l: StructLayout, f: nat)
    requires WellFormed(l) && NoEmptyFields(l) && f < l.Fields()
    ensures forall g :: 0 <= g < l.Fields() && g != f ==> OffsetOf(l, g) != OffsetOf(l, f)
  {
    forall g | 0 <= g < l.Fields() && g != f
      ensures OffsetOf(l, g) != OffsetOf(l, f)
    {
      assert Disjoint(l, f, g);
    }
  }
}

=== FILE: options.dfy ===
/** The optional-value datatype used wherever the source returns `Option<T>`. */
module Options {

  datatype Option<+T> = None | Some(value: T) {

    /** What a present option holds; `default` stands in when it is absent. */
    function GetOr(default: T): (r: T)
      ensures Some? ==> r == value
      ensures None? ==> r == default
    {
      match this
      case Some(v) => v
      case None => default
    }
  }
}

=== FILE: types.dfy ===
/**
 * The shared vocabulary of the object model: fixed-width integers, the 16-byte
 * interface identity (`Guid`), the signed byte array the plugin headers use for
 * it (`TUID`), and the shape of an interface descriptor — its own identity plus
 * the chain of interfaces it extends, which is what `Interface::inherits` answers.
 */
module Types {
  import opened Options

  /** Rust `u8`. */
  type u8 = x: int | 0 <= x < 0x100
  /** Rust `i8` (the plugin headers' `int8`). */
  type i8 = x: int | -0x80 <= x < 0x80
  /** Rust `u16`. */
  type u16 = x: int | 0 <= x < 0x1_0000
  /** Rust `u32`. */
  type u32 = x: int | 0 <= x < 0x1_0000_0000

  /** `[u8; 16]`: the identity of an interface. */
  type Guid = s: seq<u8> | |s| == 16 witness seq(16, _ => 0)

  /** `[int8; 16]`: the identity as the plugin headers declare it. */
  type Tuid = s: seq<i8> | |s| == 16 witness seq(16, _ => 0)

  /**
   * An interface descriptor as the generated bindings supply it: a name (the
   * Rust type), its identity `IID`, and the interface it directly extends, if any.
   */
  datatype Interface = Interface(name: string, iid: Guid, base: Option<Interface>)

  /**
   * `Interface::inherits`: does a pointer to this interface also serve as a
   * pointer to the interface named by `iid`? True for its own identity and for
   * the identity of every interface up its inheritance chain.
   */
  predicate Inherits(i: Interface, iid: Guid)
    decreases i
  {
    iid == i.iid || (i.base.Some? && Inherits(i.base.value, iid))
  }

  /** The inheritance chain of `i`, starting with `i` itself. */
  function Chain(i: Interface): (r: seq<Interface>)
    decreases i
    ensures |r| >= 1 && r[0] == i
  {
    match i.base
    case None => [i]
    case Some(b) => [i] + Chain(b)
  }

  /** `inherits` accepts exactly the identities found along the inheritance chain. */
  lemma {:induction false} InheritsIffOnChain(i: Interface, iid: Guid)
    decreases i
    ensures Inherits(i, iid) <==> exists j :: 0 <= j < |Chain(i)| && Chain(i)[j].iid == iid
  {
    var ch := Chain(i);
    if iid == i.iid {
      assert ch[0].iid == iid;
    }
    match i.base
    case None =>
    case Some(b) =>
      InheritsIffOnChain(b, iid);
      assert ch == [i] + Chain(b);
      if Inherits(b, iid) {
        var j :| 0 <= j < |Chain(b)| && Chain(b)[j].iid == iid;
        assert ch[j + 1] == Chain(b)[j];
      }
      if exists j :: 0 <= j < |ch| && ch[j].iid == iid {
        var j :| 0 <= j < |ch| && ch[j].iid == iid;
        if j > 0 {
          assert Chain(b)[j - 1] == ch[j];
        }
      }
  }
}

=== FILE: uid.dfy ===
/**
 * Interface identities as the plugin headers spell them (src/lib.rs).
 *
 * `uid(a, b, c, d)` packs four 32-bit words into a 16-byte `TUID` of signed
 * bytes, in one of two byte orders chosen at compile time by the target OS;
 * `tuid_as_guid` reinterprets the signed bytes as the unsigned `Guid` the
 * object model compares. Masking a byte lane and shifting it down,
 * `(x & (0xFF << 8n)) >> 8n`, is written here as `(x / 256^n) % 256`.
 */
module Uid {
  import opened Types

  /** Rust `v as i8`: keep the low 8 bits of `v` and read them as a two's-complement byte. */
  function AsI8(v: int): (r: i8)
    ensures (r - v) % 0x100 == 0
  {
    var low := v % 0x100;
    if low < 0x80 then low else low - 0x100
  }

  /** Rust `v as u8` on an `i8`: the same 8 bits read as an unsigned byte. */
  function AsU8(v: i8): (r: u8)
    ensures (r - v) % 0x100 == 0
  {
    v % 0x100
  }

  /** The weight 256^n of byte lane `n` of a 32-bit word (lane 0 is the least significant). */
  function LaneWeight(n: nat): nat
    requires n < 4
  {
    if n == 0 then 1 else if n == 1 then 0x100 else if n == 2 then 0x1_0000 else 0x100_0000
  }

  /** Byte lane `n` of `x`: `(x & (0xFF << 8n)) >> 8n`. */
  function Lane(x: u32, n: nat): u8
    requires n < 4
  {
    (x / LaneWeight(n)) % 0x100
  }

  /** `tuid_as_guid`: every byte keeps its bit pattern, read as unsigned. */
  function TuidAsGuid(t: Tuid): (g: Guid)
    ensures forall i :: 0 <= i < 16 ==> (g[i] - t[i]) % 0x100 == 0
  {
    seq(16, i requires 0 <= i < 16 => AsU8(t[i]))
  }

  /** The reverse reinterpretation, unsigned bytes back to the headers' signed ones. */
  function GuidAsTuid(g: Guid): (t: Tuid)
    ensures forall i :: 0 <= i < 16 ==> (t[i] - g[i]) % 0x100 == 0
  {
    seq(16, i requires 0 <= i < 16 => AsI8(g[i]))
  }

  /** `tuid_as_guid` loses nothing: the two reinterpretations are inverse bijections. */
  lemma TuidGuidBijection(t: Tuid, g: Guid)
    ensures GuidAsTuid(TuidAsGuid(t)) == t
    ensures TuidAsGuid(GuidAsTuid(g)) == g
  {
    assert forall i :: 0 <= i < 16 ==> GuidAsTuid(TuidAsGuid(t))[i] == t[i];
    assert forall i :: 0 <= i < 16 ==> TuidAsGuid(GuidAsTuid(g))[i] == g[i];
  }

  /** `uid` for every target except Windows: each word most significant byte first. */
  function UidUnix(a: u32, b: u32, c: u32, d: u32): Tuid
  {
    [ AsI8(Lane(a, 3)), AsI8(Lane(a, 2)), AsI8(Lane(a, 1)), AsI8(Lane(a, 0)),
      AsI8(Lane(b, 3)), AsI8(Lane(b, 2)), AsI8(Lane(b, 1)), AsI8(Lane(b, 0)),
      AsI8(Lane(c, 3)), AsI8(Lane(c, 2)), AsI8(Lane(c, 1)), AsI8(Lane(c, 0)),
      AsI8(Lane(d, 3)), AsI8(Lane(d, 2)), AsI8(Lane(d, 1)), AsI8(Lane(d, 0)) ]
  }

  /**
   * `uid` on Windows: the in-memory `GUID` struct, whose `Data1` (= a) and whose
   * `Data2`/`Data3` (the high and low halves of b) are little-endian, while `Data4`
   * (= c then d) is a plain byte array.
   */
  function UidWindows(a: u32, b: u32, c: u32, d: u32): Tuid
  {
    [ AsI8(Lane(a, 0)), AsI8(Lane(a, 1)), AsI8(Lane(a, 2)), AsI8(Lane(a, 3)),
      AsI8(Lane(b, 2)), AsI8(Lane(b, 3)), AsI8(Lane(b, 0)), AsI8(Lane(b, 1)),
      AsI8(Lane(c, 3)), AsI8(Lane(c, 2)), AsI8(Lane(c, 1)), AsI8(Lane(c, 0)),
      AsI8(Lane(d, 3)), AsI8(Lane(d, 2)), AsI8(Lane(d, 1)), AsI8(Lane(d, 0)) ]
  }

  /** The four arguments of `uid`. */
  datatype Words = Words(a: u32, b: u32, c: u32, d: u32)

  /** The bytes of `x`, most significant first. */
  function BigEndianBytes(x: u32): (s: seq<u8>)
    ensures |s| == 4
  {
    [Lane(x, 3), Lane(x, 2), Lane(x, 1), Lane(x, 0)]
  }

  /** The bytes of `x`, least significant first. */
  function LittleEndianBytes(x: u32): (s: seq<u8>)
    ensures |s| == 4
  {
    [Lane(x, 0), Lane(x, 1), Lane(x, 2), Lane(x, 3)]
  }

  /** The bytes of the 16-bit `h`, least significant first. */
  function LittleEndian16Bytes(h: u16): (s: seq<u8>)
    ensures |s| == 2
  {
    [h % 0x100, h / 0x100]
  }

  /** The 32-bit word whose bytes, most significant first, are `s`. */
  function FromBigEndian(s: seq<u8>): u32
    requires |s| == 4
  {
    (s[0] as int) * 0x100_0000 + (s[1] as int) * 0x1_0000 + (s[2] as int) * 0x100 + (s[3] as int)
  }

  /** The 32-bit word whose bytes, least significant first, are `s`. */
  function FromLittleEndian(s: seq<u8>): u32
    requires |s| == 4
  {
    (s[0] as int) + (s[1] as int) * 0x100 + (s[2] as int) * 0x1_0000 + (s[3] as int) * 0x100_0000
  }

  /** The 16-bit word whose bytes, least significant first, are `s`. */
  function FromLittleEndian16(s: seq<u8>): u16
    requires |s| == 2
  {
    (s[0] as int) + (s[1] as int) * 0x100
  }

  /**
   * Reads an identity in the field order of section 4.1.2 of RFC 4122, where
   * every field is stored most significant byte first: the sixteen bytes are
   * then four big-endian 32-bit words.
   */
  function DecodeRfc4122(g: Guid): Words
  {
    Words(FromBigEndian(g[0..4]), FromBigEndian(g[4..8]), FromBigEndian(g[8..12]), FromBigEndian(g[12..16]))
  }

  /**
   * Reads the Windows in-memory `GUID`: `Data1` little-endian 32-bit, `Data2` and
   * `Data3` little-endian 16-bit (together the second word, `Data2` on top), and
   * `Data4` as two big-endian words.
   */
  function DecodeWindowsGuid(g: Guid): Words
  {
    Words(FromLittleEndian(g[0..4]),
          (FromLittleEndian16(g[4..6]) as int) * 0x1_0000 + (FromLittleEndian16(g[6..8]) as int),
          FromBigEndian(g[8..12]), FromBigEndian(g[12..16]))
  }

  /** An unsigned byte survives the round trip through `as i8` and back to `u8`. */
  lemma CastRoundTrip(v: u8)
    ensures AsU8(AsI8(v)) == v
  {
  }

  /** Every byte lane survives the round trip through `as i8` and back to `u8`. */
  lemma LanesSurviveCasts(x: u32)
    ensures AsU8(AsI8(Lane(x, 0))) == Lane(x, 0)
    ensures AsU8(AsI8(Lane(x, 1))) == Lane(x, 1)
    ensures AsU8(AsI8(Lane(x, 2))) == Lane(x, 2)
    ensures AsU8(AsI8(Lane(x, 3))) == Lane(x, 3)
  {
    CastRoundTrip(Lane(x, 0));
    CastRoundTrip(Lane(x, 1));
    CastRoundTrip(Lane(x, 2));
    CastRoundTrip(Lane(x, 3));
  }

  /** The four byte lanes of a word, weighted by their position, add back up to the word. */
  lemma LanesRecompose(x: u32)
    ensures FromBigEndian(BigEndianBytes(x)) == x
    ensures FromLittleEndian(LittleEndianBytes(x)) == x
  {
    var q1 := x / 0x100;
    var q2 := x / 0x1_0000;
    var q3 := x / 0x100_0000;
    assert x == q1 * 0x100 + x % 0x100;
    assert q1 == q2 * 0x100 + q1 % 0x100 by { assert q2 == q1 / 0x100; }
    assert q2 == q3 * 0x100 + q2 % 0x100 by { assert q3 == q2 / 0x100; }
    assert q3 < 0x100;
  }

  /** The high and low halves of a word, each split least significant byte first, are its four lanes. */
  lemma HalvesAreLanes(x: u32)
    ensures LittleEndian16Bytes(x / 0x1_0000) == [Lane(x, 2), Lane(x, 3)]
    ensures LittleEndian16Bytes(x % 0x1_0000) == [Lane(x, 0), Lane(x, 1)]
    ensures FromLittleEndian16([Lane(x, 2), Lane(x, 3)]) * 0x1_0000 + FromLittleEndian16([Lane(x, 0), Lane(x, 1)]) == x
  {
    var q1 := x / 0x100;
    var q2 := x / 0x1_0000;
    var q3 := x / 0x100_0000;
    assert q2 == q1 / 0x100;
    assert q3 == q2 / 0x100;
    assert (x % 0x1_0000) / 0x100 == q1 % 0x100;
    assert x == q2 * 0x1_0000 + x % 0x1_0000;
  }

  /**
   * The non-Windows `uid`, read as unsigned bytes, is the four arguments one
   * after the other, each most significant byte first.
   */
  lemma UidUnixLayout(a: u32, b: u32, c: u32, d: u32)
    ensures TuidAsGuid(UidUnix(a, b, c, d))
         == BigEndianBytes(a) + BigEndianBytes(b) + BigEndianBytes(c) + BigEndianBytes(d)
  {
    LanesSurviveCasts(a);
    LanesSurviveCasts(b);
    LanesSurviveCasts(c);
    LanesSurviveCasts(d);
    var g := TuidAsGuid(UidUnix(a, b, c, d));
    var e := BigEndianBytes(a) + BigEndianBytes(b) + BigEndianBytes(c) + BigEndianBytes(d);
    assert g[0] == e[0] && g[1] == e[1] && g[2] == e[2] && g[3] == e[3];
    assert g[4] == e[4] && g[5] == e[5] && g[6] == e[6] && g[7] == e[7];
    assert g[8] == e[8] && g[9] == e[9] && g[10] == e[10] && g[11] == e[11];
    assert g[12] == e[12] && g[13] == e[13] && g[14] == e[14] && g[15] == e[15];
  }

  /**
   * The Windows `uid`, read as unsigned bytes: `a` least significant byte first,
   * then the high half of `b` and the low half of `b`, each least significant
   * byte first, then `c` and `d` most significant byte first.
   */
  lemma UidWindowsLayout(a: u32, b: u32, c: u32, d: u32)
    ensures TuidAsGuid(UidWindows(a, b, c, d))
         == LittleEndianBytes(a) + LittleEndian16Bytes(b / 0x1_0000) + LittleEndian16Bytes(b % 0x1_0000)
            + BigEndianBytes(c) + BigEndianBytes(d)
  {
    LanesSurviveCasts(a);
    LanesSurviveCasts(b);
    LanesSurviveCasts(c);
    LanesSurviveCasts(d);
    HalvesAreLanes(b);
    var g := TuidAsGuid(UidWindows(a, b, c, d));
    var e := LittleEndianBytes(a) + [Lane(b, 2), Lane(b, 3)] + [Lane(b, 0), Lane(b, 1)]
             + BigEndianBytes(c) + BigEndianBytes(d);
    assert g[0] == e[0] && g[1] == e[1] && g[2] == e[2] && g[3] == e[3];
    assert g[4] == e[4] && g[5] == e[5] && g[6] == e[6] && g[7] == e[7];
    assert g[8] == e[8] && g[9] == e[9] && g[10] == e[10] && g[11] == e[11];
    assert g[12] == e[12] && g[13] == e[13] && g[14] == e[14] && g[15] == e[15];
  }

  /** The non-Windows `uid` is RFC 4122 order: decoding it gives back its four arguments. */
  lemma UidUnixRoundTrip(a: u32, b: u32, c: u32, d: u32)
    ensures DecodeRfc4122(TuidAsGuid(UidUnix(a, b, c, d))) == Words(a, b, c, d)
  {
    var g := TuidAsGuid(UidUnix(a, b, c, d));
    UidUnixLayout(a, b, c, d);
    assert g[0..4] == BigEndianBytes(a);
    assert g[4..8] == BigEndianBytes(b);
    assert g[8..12] == BigEndianBytes(c);
    assert g[12..16] == BigEndianBytes(d);
    LanesRecompose(a);
    LanesRecompose(b);
    LanesRecompose(c);
    LanesRecompose(d);
  }

  /** The Windows `uid` is the in-memory GUID layout: decoding it gives back its four arguments. */
  lemma UidWindowsRoundTrip(a: u32, b: u32, c: u32, d: u32)
    ensures DecodeWindowsGuid(TuidAsGuid(UidWindows(a, b, c, d))) == Words(a, b, c, d)
  {
    var g := TuidAsGuid(UidWindows(a, b, c, d));
    UidWindowsLayout(a, b, c, d);
    HalvesAreLanes(b);
    assert g[0..4] == LittleEndianBytes(a);
    assert g[4..6] == [Lane(b, 2), Lane(b, 3)];
    assert g[6..8] == [Lane(b, 0), Lane(b, 1)];
    assert g[8..12] == BigEndianBytes(c);
    assert g[12..16] == BigEndianBytes(d);
    LanesRecompose(a);
    LanesRecompose(c);
    LanesRecompose(d);
  }

  /** Distinct argument tuples give distinct identities on non-Windows targets. */
  lemma UidUnixInjective(a: u32, b: u32, c: u32, d: u32, a': u32, b': u32, c': u32, d': u32)
    requires UidUnix(a, b, c, d) == UidUnix(a', b', c', d')
    ensures a == a' && b == b' && c == c' && d == d'
  {
    UidUnixRoundTrip(a, b, c, d);
    UidUnixRoundTrip(a', b', c', d');
  }

  /** Distinct argument tuples give distinct identities on Windows. */
  lemma UidWindowsInjective(a: u32, b: u32, c: u32, d: u32, a': u32, b': u32, c': u32, d': u32)
    requires UidWindows(a, b, c, d) == UidWindows(a', b', c', d')
    ensures a == a' && b == b' && c == c' && d == d'
  {
    UidWindowsRoundTrip(a, b, c, d);
    UidWindowsRoundTrip(a', b', c', d');
  }

  /**
   * Where byte i of the Windows layout sits in the RFC 4122 layout: the first
   * word is reversed, each half of the second word is swapped, the rest agrees.
   */
  const WindowsOrder: seq<nat> := [3, 2, 1, 0, 5, 4, 7, 6, 8, 9, 10, 11, 12, 13, 14, 15]

  /** The two variants hold the same bytes; Windows permutes the first eight and keeps the last eight. */
  lemma UidWindowsPermutesUnix(a: u32, b: u32, c: u32, d: u32)
    ensures forall i :: 0 <= i < 16 ==> UidWindows(a, b, c, d)[i] == UidUnix(a, b, c, d)[WindowsOrder[i]]
    ensures UidWindows(a, b, c, d)[8..] == UidUnix(a, b, c, d)[8..]
  {
  }

  /** The all-zero arguments give the all-zero identity on both targets. */
  lemma UidZero()
    ensures UidUnix(0, 0, 0, 0) == seq(16, _ => 0)
    ensures UidWindows(0, 0, 0, 0) == seq(16, _ => 0)
  {
  }
}

=== FILE: wrapper.dfy ===
/**
 * The life of one `ComWrapper` allocation (com-scrape-types/src/class.rs):
 * its shared strong count, who holds each counted reference, and whether it
 * has been freed. Everything runs sequentially; the atomics of `Arc` are not
 * modelled.
 */
module Wrapper {
  import opened Options
  import opened Types
  import opened Layout
  import opened Class

  /** Who owns one unit of an allocation's strong count. */
  datatype Hold =
    | WrapperHold            // a `ComWrapper` value
    | InterfaceHold(k: nat)  // an owned pointer to interface k: a `ComPtr`, or what `query_interface` returned
    | ForeignHold            // a reference taken by calling `add_ref` directly

  /**
   * One `Arc<ComWrapperInner<C>>`: its address, the strong count, the owners
   * of the counted references, whether it has been freed, and how many times
   * its destructor has run.
   */
  datatype Allocation = Allocation(base: int, count: nat, holds: multiset<Hold>, destroyed: bool, frees: nat)

  /**
   * The accounting every reachable allocation satisfies: one count per hold,
   * freed exactly when the count is zero, and freed at most once.
   */
  predicate Valid(a: Allocation)
  {
    && a.count == |a.holds|
    && (a.destroyed <==> a.count == 0)
    && a.frees == (if a.destroyed then 1 else 0)
  }

  /** `Arc::increment_strong_count`: one more counted reference, owned by `h`. */
  function Take(a: Allocation, h: Hold): (r: Allocation)
    requires Valid(a) && !a.destroyed
    ensures Valid(r) && !r.destroyed && r.base == a.base
    ensures r.count == a.count + 1 && r.holds == a.holds + multiset{h}
  {
    a.(count := a.count + 1, holds := a.holds + multiset{h})
  }

  /**
   * `Arc::decrement_strong_count`: `h` gives its counted reference back, and the
   * allocation is freed when that was the last one.
   */
  function GiveBack(a: Allocation, h: Hold): (r: Allocation)
    requires Valid(a) && !a.destroyed && h in a.holds
    ensures Valid(r) && r.base == a.base
    ensures r.count == a.count - 1 && r.holds == a.holds - multiset{h}
    ensures r.destroyed <==> a.count == 1
    ensures r.frees == a.frees + (if r.destroyed then 1 else 0)
  {
    var n := a.count - 1;
    a.(count := n, holds := a.holds - multiset{h}, destroyed := n == 0, frees := if n == 0 then a.frees + 1 else a.frees)
  }

  /** `ComWrapper::new`: a fresh allocation at `base`, held once, by the wrapper. */
  function New(base: int): (a: Allocation)
    ensures Valid(a) && !a.destroyed && a.base == base
    ensures a.count == 1 && a.holds == multiset{WrapperHold}
  {
    Allocation(base, 1, multiset{WrapperHold}, false, 0)
  }

  /** `ComWrapper::clone`: a second wrapper, one more count. */
  function CloneWrapper(a: Allocation): (r: Allocation)
    requires Valid(a) && !a.destroyed && WrapperHold in a.holds
    ensures Valid(r) && !r.destroyed && r.base == a.base
    ensures r.count == a.count + 1 && r.holds == a.holds + multiset{WrapperHold}
    ensures r.holds[WrapperHold] == a.holds[WrapperHold] + 1
  {
    Take(a, WrapperHold)
  }

  /** Dropping a `ComWrapper` (the `Arc`'s own drop): one count fewer, freed at zero. */
  function DropWrapper(a: Allocation): (r: Allocation)
    requires Valid(a) && !a.destroyed && WrapperHold in a.holds
    ensures Valid(r) && r.base == a.base
    ensures r.count == a.count - 1 && r.holds == a.holds - multiset{WrapperHold}
    ensures r.holds[WrapperHold] == a.holds[WrapperHold] - 1
    ensures r.destroyed <==> a.count == 1
    ensures r.frees == a.frees + (if r.destroyed then 1 else 0)
  {
    GiveBack(a, WrapperHold)
  }

  /**
   * Who may own the reference a raw `add_ref` hands out: never a wrapper
   * (nothing turns a counted reference into a `ComWrapper`), and a pointer only
   * to an interface the class declares.
   */
  predicate RawOwner(c: Class, h: Hold)
  {
    h != WrapperHold && (h.InterfaceHold? ==> h.k < |c.interfaces|)
  }

  /**
   * `ComWrapper::add_ref`, reached through the class's `Unknown::add_ref` with
   * a pointer to the data: returns the old count plus one, which is the new
   * count, and `h`, a `RawOwner`, owns the extra reference.
   */
  function AddRef(c: Class, a: Allocation, p: int, h: Hold): (r: (Allocation, nat))
    requires ValidClass(c) && Valid(a) && !a.destroyed && WrapperFromData(c, p) == a.base
    requires RawOwner(c, h)
    ensures r.1 == a.count + 1 && r.0.count == r.1
    ensures r.0.holds == a.holds + multiset{h}
    ensures Valid(r.0) && !r.0.destroyed && r.0.base == a.base
  {
    var result := a.count + 1;
    (Take(a, h), result)
  }

  /**
   * `ComWrapper::release`, reached through the class's `Unknown::release`:
   * returns the old count minus one, which is the new count; the allocation is
   * freed exactly when that is zero.
   */
  function Release(c: Class, a: Allocation, p: int, h: Hold): (r: (Allocation, nat))
    requires ValidClass(c) && Valid(a) && !a.destroyed && WrapperFromData(c, p) == a.base && h in a.holds
    ensures r.1 + 1 == a.count && r.0.count == r.1
    ensures r.0.holds == a.holds - multiset{h}
    ensures r.0.destroyed <==> r.1 == 0
    ensures r.0.frees == a.frees + (if r.1 == 0 then 1 else 0)
    ensures Valid(r.0) && r.0.base == a.base
  {
    var result := a.count - 1;
    (GiveBack(a, h), result)
  }

  /**
   * `ComWrapper::as_com_ref::<I_k>`: a borrowed pointer to interface k of a
   * live wrapper's allocation. It is the pointer `query_interface` computes
   * from the data pointer; the allocation is not touched.
   */
  function AsComRef(c: Class, a: Allocation, k: nat): (p: int)
    requires ValidClass(c) && Valid(a) && !a.destroyed && WrapperHold in a.holds && k < |c.interfaces|
    ensures p == QueryPointer(c, DataAddress(c, a.base), k)
  {
    InterfaceFromWrapper(c, a.base, k)
  }

  /**
   * `ComWrapper::to_com_ptr::<I_k>`: clones the `Arc` and leaks the clone as
   * an owned interface pointer. One more count; the wrapper keeps its own.
   */
  function ToComPtr(c: Class, a: Allocation, k: nat): (r: (Allocation, int))
    requires ValidClass(c) && Valid(a) && !a.destroyed && WrapperHold in a.holds && k < |c.interfaces|
    ensures r.0.count == a.count + 1 && r.0.holds == a.holds + multiset{InterfaceHold(k)}
    ensures WrapperHold in r.0.holds
    ensures r.1 == AsComRef(c, a, k)
    ensures Valid(r.0) && !r.0.destroyed && r.0.base == a.base
  {
    (Take(a, InterfaceHold(k)), InterfaceFromWrapper(c, a.base, k))
  }

  /**
   * `ComWrapper::into_com_ptr::<I_k>`: consumes the wrapper and leaks its `Arc`
   * as an owned interface pointer. The wrapper's hold becomes the pointer's;
   * the count does not change.
   */
  function IntoComPtr(c: Class, a: Allocation, k: nat): (r: (Allocation, int))
    requires ValidClass(c) && Valid(a) && !a.destroyed && WrapperHold in a.holds && k < |c.interfaces|
    ensures r.0.count == a.count
    ensures r.0.holds == a.holds - multiset{WrapperHold} + multiset{InterfaceHold(k)}
    ensures r.1 == AsComRef(c, a, k)
    ensures Valid(r.0) && !r.0.destroyed && r.0.base == a.base
  {
    (a.(holds := a.holds - multiset{WrapperHold} + multiset{InterfaceHold(k)}), InterfaceFromWrapper(c, a.base, k))
  }

  /**
   * The class's `Unknown::query_interface`, called with the data pointer `p`.
   * It answers with the first declared interface whose `inherits` accepts
   * `iid`, after taking one reference on the caller's behalf; when none does it
   * answers None and leaves the allocation as it was.
   */
  function QueryInterface(c: Class, a: Allocation, p: int, iid: Guid): (r: (Allocation, Option<int>))
    requires ValidClass(c) && Valid(a) && !a.destroyed && WrapperFromData(c, p) == a.base
    ensures r.1.None? <==> forall k :: 0 <= k < |c.interfaces| ==> !Inherits(c.interfaces[k], iid)
    ensures r.1.None? ==> r.0 == a
    ensures r.1.Some? == FirstMatch(c.interfaces, iid, 0).Some?
    ensures r.1.Some? ==>
      var k := FirstMatch(c.interfaces, iid, 0).value;
      && r.1.value == InterfaceFromWrapper(c, a.base, k)
      && r.0.count == a.count + 1
      && r.0.holds == a.holds + multiset{InterfaceHold(k)}
    ensures Valid(r.0) && !r.0.destroyed && r.0.base == a.base
  {
    match FirstMatch(c.interfaces, iid, 0)
    case None => (a, None)
    case Some(k) =>
      var (a', _) := AddRef(c, a, p, InterfaceHold(k));
      (a', Some(QueryPointer(c, p, k)))
  }

  /**
   * When no interface declared before k accepts k's own identity, the two ways
   * of obtaining an owned pointer to interface k — asking the object with that
   * identity, or asking the wrapper — give the same address and the same new
   * state. (An earlier interface that extends k would win the query instead.)
   */
  lemma QueryAgreesWithToComPtr(c: Class, a: Allocation, k: nat)
    requires ValidClass(c) && Valid(a) && !a.destroyed && WrapperHold in a.holds && k < |c.interfaces|
    requires FirstMatch(c.interfaces, c.interfaces[k].iid, 0) == Some(k)
    ensures var q := QueryInterface(c, a, DataAddress(c, a.base), c.interfaces[k].iid);
      q.1 == Some(ToComPtr(c, a, k).1) && q.0 == ToComPtr(c, a, k).0
  {
  }

  /** The operations a program can apply to one allocation. */
  datatype Op =
    | CloneOp
    | DropWrapperOp
    | AsComRefOp(k: nat)
    | ToComPtrOp(k: nat)
    | IntoComPtrOp(k: nat)
    | AddRefOp(h: Hold)
    | ReleaseOp(h: Hold)
    | QueryInterfaceOp(iid: Guid)

  /**
   * How far an operation that succeeds moves the count: clones, `to_com_ptr`,
   * `add_ref` and a successful `query_interface` add one; drops and `release`
   * take one away; borrowing, `into_com_ptr` and a failed query add nothing.
   */
  function Delta(c: Class, op: Op): int
  {
    match op
    case CloneOp => 1
    case DropWrapperOp => -1
    case AsComRefOp(_) => 0
    case ToComPtrOp(_) => 1
    case IntoComPtrOp(_) => 0
    case AddRefOp(_) => 1
    case ReleaseOp(_) => -1
    case QueryInterfaceOp(iid) => if FirstMatch(c.interfaces, iid, 0).Some? then 1 else 0
  }

  /** The sum of `Delta` over a sequence of operations. */
  function TotalDelta(c: Class, ops: seq<Op>): int
    decreases |ops|
  {
    if ops == [] then 0 else Delta(c, ops[0]) + TotalDelta(c, ops[1..])
  }

  /**
   * The safety precondition of each operation on a live allocation: the
   * `ComWrapper` methods need a wrapper to call them on, the interface methods
   * need a declared interface, and `release` needs a reference its caller owns.
   * `add_ref` and `query_interface` may be called by anyone, but the reference
   * `add_ref` hands out is never a wrapper and names only a declared interface.
   */
  predicate Allowed(c: Class, a: Allocation, op: Op)
  {
    match op
    case CloneOp => WrapperHold in a.holds
    case DropWrapperOp => WrapperHold in a.holds
    case AsComRefOp(k) => WrapperHold in a.holds && k < |c.interfaces|
    case ToComPtrOp(k) => WrapperHold in a.holds && k < |c.interfaces|
    case IntoComPtrOp(k) => WrapperHold in a.holds && k < |c.interfaces|
    case AddRefOp(h) => RawOwner(c, h)
    case ReleaseOp(h) => h in a.holds
    case QueryInterfaceOp(_) => true
  }

  /** The hold an operation gives up: a dropped or consumed wrapper, or a released reference. */
  function Lost(op: Op): multiset<Hold>
  {
    match op
    case DropWrapperOp => multiset{WrapperHold}
    case IntoComPtrOp(_) => multiset{WrapperHold}
    case ReleaseOp(h) => multiset{h}
    case _ => multiset{}
  }

  /**
   * The hold an operation creates: the new wrapper, the owned interface
   * pointer, the caller's extra reference, or the reference a successful query
   * takes for the interface it answers with.
   */
  function Gained(c: Class, op: Op): multiset<Hold>
  {
    match op
    case CloneOp => multiset{WrapperHold}
    case ToComPtrOp(k) => multiset{InterfaceHold(k)}
    case IntoComPtrOp(k) => multiset{InterfaceHold(k)}
    case AddRefOp(h) => multiset{h}
    case QueryInterfaceOp(iid) =>
      (match FirstMatch(c.interfaces, iid, 0)
       case None => multiset{}
       case Some(k) => multiset{InterfaceHold(k)})
    case _ => multiset{}
  }

  /**
   * Applies one operation, or None when its safety precondition fails: the
   * allocation is already freed, the wrapper or the reference it needs is not
   * held, or the interface is not declared. An allowed operation on a live
   * allocation always succeeds; a borrow leaves the allocation as it was.
   */
  function Step(c: Class, a: Allocation, op: Op): (r: Option<Allocation>)
    requires ValidClass(c) && Valid(a)
    ensures r.Some? <==> !a.destroyed && Allowed(c, a, op)
    ensures r.Some? ==> Valid(r.value) && r.value.base == a.base
    ensures r.Some? && op.AsComRefOp? ==> r.value == a
  {
    if a.destroyed then None
    else
      var p := DataAddress(c, a.base);
      match op
      case CloneOp =>
        if WrapperHold in a.holds then Some(CloneWrapper(a)) else None
      case DropWrapperOp =>
        if WrapperHold in a.holds then Some(DropWrapper(a)) else None
      case AsComRefOp(k) =>
        if WrapperHold in a.holds && k < |c.interfaces| then var _ := AsComRef(c, a, k); Some(a) else None
      case ToComPtrOp(k) =>
        if WrapperHold in a.holds && k < |c.interfaces| then Some(ToComPtr(c, a, k).0) else None
      case IntoComPtrOp(k) =>
        if WrapperHold in a.holds && k < |c.interfaces| then Some(IntoComPtr(c, a, k).0) else None
      case AddRefOp(h) =>
        if RawOwner(c, h) then Some(AddRef(c, a, p, h).0) else None
      case ReleaseOp(h) =>
        if h in a.holds then Some(Release(c, a, p, h).0) else None
      case QueryInterfaceOp(iid) =>
        Some(QueryInterface(c, a, p, iid).0)
  }

  /** Every operation that succeeds moves the count by exactly its `Delta`. */
  lemma StepDelta(c: Class, a: Allocation, op: Op)
    requires ValidClass(c) && Valid(a) && Step(c, a, op).Some?
    ensures Step(c, a, op).value.count == a.count + Delta(c, op)
  {
  }

  /**
   * Every operation that succeeds gives up exactly the hold it names and
   * creates exactly the hold it names; every other hold is untouched.
   */
  lemma StepHolds(c: Class, a: Allocation, op: Op)
    requires ValidClass(c) && Valid(a) && Step(c, a, op).Some?
    ensures Step(c, a, op).value.holds == a.holds - Lost(op) + Gained(c, op)
  {
  }

  /**
   * Applies the operations in order, stopping at the first whose safety
   * precondition fails. Whatever runs, the accounting stays valid: one count
   * per hold, freed exactly at zero, freed at most once.
   */
  function Run(c: Class, a: Allocation, ops: seq<Op>): (r: Option<Allocation>)
    requires ValidClass(c) && Valid(a)
    decreases |ops|
    ensures r.Some? ==> Valid(r.value) && r.value.base == a.base && r.value.frees <= 1
  {
    if ops == [] then Some(a)
    else
      match Step(c, a, ops[0])
      case None => None
      case Some(b) => Run(c, b, ops[1..])
  }

  /** Exact accounting: after any run, the count is the start count plus every operation's `Delta`. */
  lemma {:induction false} RunAccounting(c: Class, a: Allocation, ops: seq<Op>)
    requires ValidClass(c) && Valid(a) && Run(c, a, ops).Some?
    decreases |ops|
    ensures Run(c, a, ops).value.count == a.count + TotalDelta(c, ops)
  {
    if ops != [] {
      var b := Step(c, a, ops[0]).value;
      StepDelta(c, a, ops[0]);
      RunAccounting(c, b, ops[1..]);
    }
  }

  /** How many of the operations are clones. */
  function Clones(ops: seq<Op>): nat
    decreases |ops|
  {
    if ops == [] then 0 else (if ops[0].CloneOp? then 1 else 0) + Clones(ops[1..])
  }

  /** A step that succeeds creates a wrapper only when it is a clone. */
  lemma StepWrappers(c: Class, a: Allocation, op: Op)
    requires ValidClass(c) && Valid(a) && Step(c, a, op).Some?
    ensures Step(c, a, op).value.holds[WrapperHold] <= a.holds[WrapperHold] + (if op.CloneOp? then 1 else 0)
  {
  }

  /**
   * Wrappers come only from `ComWrapper::new` and `clone`: after any run there
   * are at most as many as there were at the start plus the clones in the run.
   */
  lemma {:induction false} WrappersOnlyFromClones(c: Class, a: Allocation, ops: seq<Op>)
    requires ValidClass(c) && Valid(a) && Run(c, a, ops).Some?
    decreases |ops|
    ensures Run(c, a, ops).value.holds[WrapperHold] <= a.holds[WrapperHold] + Clones(ops)
  {
    if ops != [] {
      var b := Step(c, a, ops[0]).value;
      StepWrappers(c, a, ops[0]);
      WrappersOnlyFromClones(c, b, ops[1..]);
    }
  }

  /**
   * Once `into_com_ptr` has consumed the only wrapper, no `add_ref` brings one
   * back: a raw reference cannot be cloned or dropped as a wrapper.
   */
  lemma NoWrapperFromRawReference(c: Class, base: int, k: nat)
    requires ValidClass(c) && k < |c.interfaces|
    ensures Run(c, New(base), [IntoComPtrOp(k), AddRefOp(WrapperHold)]).None?
    ensures Run(c, New(base), [IntoComPtrOp(k), AddRefOp(ForeignHold), CloneOp]).None?
  {
    var a := Step(c, New(base), IntoComPtrOp(k)).value;
    assert WrapperHold !in a.holds by {
      StepHolds(c, New(base), IntoComPtrOp(k));
    }
    var ops := [IntoComPtrOp(k), AddRefOp(ForeignHold), CloneOp];
    RunFirstStep(c, New(base), ops, a);
    var b := Step(c, a, AddRefOp(ForeignHold)).value;
    assert WrapperHold !in b.holds by {
      StepHolds(c, a, AddRefOp(ForeignHold));
    }
    assert ops[1..][0] == AddRefOp(ForeignHold) && ops[1..][1..] == [CloneOp];
    RunFirstStep(c, a, ops[1..], b);
  }

  /** The operations with every borrow (`as_com_ref`) left out. */
  function WithoutBorrows(ops: seq<Op>): (r: seq<Op>)
    decreases |ops|
  {
    if ops == [] then []
    else if ops[0].AsComRefOp? then WithoutBorrows(ops[1..])
    else [ops[0]] + WithoutBorrows(ops[1..])
  }

  /**
   * Borrowing never touches the allocation: a run that succeeds ends in the
   * same state with all its borrows left out.
   */
  lemma {:induction false} BorrowsChangeNothing(c: Class, a: Allocation, ops: seq<Op>)
    requires ValidClass(c) && Valid(a) && Run(c, a, ops).Some?
    decreases |ops|
    ensures Run(c, a, WithoutBorrows(ops)) == Run(c, a, ops)
  {
    if ops != [] {
      var b := Step(c, a, ops[0]).value;
      BorrowsChangeNothing(c, b, ops[1..]);
      if !ops[0].AsComRefOp? {
        var w := [ops[0]] + WithoutBorrows(ops[1..]);
        assert w[0] == ops[0] && w[1..] == WithoutBorrows(ops[1..]);
      }
    }
  }

  /** Running two sequences one after the other is running their concatenation. */
  lemma {:induction false} RunAppend(c: Class, a: Allocation, xs: seq<Op>, ys: seq<Op>)
    requires ValidClass(c) && Valid(a)
    decreases |xs|
    ensures Run(c, a, xs + ys) == match Run(c, a, xs) case None => None case Some(b) => Run(c, b, ys)
  {
    if xs == [] {
      assert xs + ys == ys;
    } else {
      assert (xs + ys)[0] == xs[0] && (xs + ys)[1..] == xs[1..] + ys;
      match Step(c, a, xs[0])
      case None =>
      case Some(b) => RunAppend(c, b, xs[1..], ys);
    }
  }

  /** `k` copies of one operation. */
  function Repeat(op: Op, k: nat): (r: seq<Op>)
    ensures |r| == k && forall i :: 0 <= i < k ==> r[i] == op
  {
    seq(k, _ => op)
  }

  /** `a` with `k` more counts, all owned by `h`. */
  function Retained(a: Allocation, h: Hold, k: nat): Allocation
  {
    a.(count := a.count + k, holds := a.holds[h := a.holds[h] + k])
  }

  /** One `add_ref` on behalf of `h` adds one count, owned by `h`. */
  lemma AddRefStep(c: Class, a: Allocation, h: Hold)
    requires ValidClass(c) && Valid(a) && !a.destroyed && RawOwner(c, h)
    ensures Step(c, a, AddRefOp(h)) == Some(a.(count := a.count + 1, holds := a.holds[h := a.holds[h] + 1]))
  {
    assert a.holds + multiset{h} == a.holds[h := a.holds[h] + 1];
  }

  /** A run of `k` `add_ref`s by `h` is one `add_ref` followed by a run of `k - 1`. */
  lemma AddRefThenRun(c: Class, a: Allocation, h: Hold, k: nat)
    requires ValidClass(c) && Valid(a) && !a.destroyed && RawOwner(c, h) && k >= 1
    ensures var b := a.(count := a.count + 1, holds := a.holds[h := a.holds[h] + 1]);
      && Valid(b) && !b.destroyed
      && Run(c, a, Repeat(AddRefOp(h), k)) == Run(c, b, Repeat(AddRefOp(h), k - 1))
  {
    var ops := Repeat(AddRefOp(h), k);
    assert ops[0] == AddRefOp(h) && ops[1..] == Repeat(AddRefOp(h), k - 1);
    AddRefStep(c, a, h);
    RunFirstStep(c, a, ops, a.(count := a.count + 1, holds := a.holds[h := a.holds[h] + 1]));
  }

  /** `k` calls of `add_ref` on behalf of `h` add `k` counts, all owned by `h`. */
  lemma {:induction false} AddRefs(c: Class, a: Allocation, h: Hold, k: nat)
    requires ValidClass(c) && Valid(a) && !a.destroyed && RawOwner(c, h)
    decreases k
    ensures Run(c, a, Repeat(AddRefOp(h), k)) == Some(a.(count := a.count + k, holds := a.holds[h := a.holds[h] + k]))
  {
    if k == 0 {
      assert a.holds[h := a.holds[h]] == a.holds;
    } else {
      var b := a.(count := a.count + 1, holds := a.holds[h := a.holds[h] + 1]);
      AddRefThenRun(c, a, h, k);
      AddRefs(c, b, h, k - 1);
      assert b.holds[h := b.holds[h] + (k - 1)] == a.holds[h := a.holds[h] + k];
    }
  }

  /** Taking one `h` away from a multiset lowers its multiplicity by one. */
  lemma RemoveOne(m: multiset<Hold>, h: Hold)
    requires h in m
    ensures m - multiset{h} == m[h := m[h] - 1]
  {
  }

  /** A `release` by `h` of one of its `k` extra counts leaves `k - 1` of them. */
  lemma ReleaseRetained(c: Class, a: Allocation, h: Hold, k: nat)
    requires ValidClass(c) && Valid(a) && !a.destroyed && k >= 1 && Valid(Retained(a, h, k))
    ensures Valid(Retained(a, h, k - 1))
    ensures Step(c, Retained(a, h, k), ReleaseOp(h)) == Some(Retained(a, h, k - 1))
  {
    var b := Retained(a, h, k);
    RemoveOne(b.holds, h);
    assert b.holds[h := b.holds[h] - 1] == Retained(a, h, k - 1).holds;
  }

  /** A run whose first step succeeds continues from that step's result. */
  lemma RunFirstStep(c: Class, a: Allocation, ops: seq<Op>, b: Allocation)
    requires ValidClass(c) && Valid(a) && ops != [] && Step(c, a, ops[0]) == Some(b)
    ensures Valid(b) && Run(c, a, ops) == Run(c, b, ops[1..])
  {
  }

  /** A run of `k` `release`s by `h` is one `release` followed by a run of `k - 1`. */
  lemma ReleaseThenRun(c: Class, a: Allocation, h: Hold, k: nat)
    requires ValidClass(c) && Valid(a) && !a.destroyed && k >= 1 && Valid(Retained(a, h, k))
    ensures Valid(Retained(a, h, k - 1))
    ensures Run(c, Retained(a, h, k), Repeat(ReleaseOp(h), k)) == Run(c, Retained(a, h, k - 1), Repeat(ReleaseOp(h), k - 1))
  {
    var ops := Repeat(ReleaseOp(h), k);
    assert ops[0] == ReleaseOp(h) && ops[1..] == Repeat(ReleaseOp(h), k - 1);
    ReleaseRetained(c, a, h, k);
    RunFirstStep(c, Retained(a, h, k), ops, Retained(a, h, k - 1));
  }

  /** `k` calls of `release` by `h`, who owns `k` counts on top of a live `a`, give back exactly `a`. */
  lemma {:induction false} Releases(c: Class, a: Allocation, h: Hold, k: nat)
    requires ValidClass(c) && Valid(a) && !a.destroyed && Valid(Retained(a, h, k))
    decreases k
    ensures Run(c, Retained(a, h, k), Repeat(ReleaseOp(h), k)) == Some(a)
  {
    if k == 0 {
      assert a.holds[h := a.holds[h]] == a.holds;
      assert Retained(a, h, 0) == a;
      assert Repeat(ReleaseOp(h), 0) == [];
    } else {
      ReleaseThenRun(c, a, h, k);
      Releases(c, a, h, k - 1);
    }
  }

  /** `k` `add_ref`s followed by `k` `release`s leave a live allocation exactly as it was. */
  lemma RetainReleaseRoundTrip(c: Class, a: Allocation, h: Hold, k: nat)
    requires ValidClass(c) && Valid(a) && !a.destroyed && RawOwner(c, h)
    ensures Run(c, a, Repeat(AddRefOp(h), k) + Repeat(ReleaseOp(h), k)) == Some(a)
  {
    AddRefs(c, a, h, k);
    assert Run(c, a, Repeat(AddRefOp(h), k)) == Some(Retained(a, h, k));
    RunAppend(c, a, Repeat(AddRefOp(h), k), Repeat(ReleaseOp(h), k));
    Releases(c, a, h, k);
  }

  /**
   * After `k` `add_ref`s and `k` `release`s, dropping the original wrapper
   * frees the allocation, exactly once, and nothing can be done with it after.
   */
  lemma OneReleaseTooManyDestroys(c: Class, base: int, h: Hold, k: nat)
    requires ValidClass(c) && RawOwner(c, h)
    ensures var r := Run(c, New(base), Repeat(AddRefOp(h), k) + Repeat(ReleaseOp(h), k) + [DropWrapperOp]);
      && r.Some? && r.value.destroyed && r.value.count == 0 && r.value.frees == 1
      && forall op :: Step(c, r.value, op).None?
  {
    var a := New(base);
    var xs := Repeat(AddRefOp(h), k) + Repeat(ReleaseOp(h), k);
    RetainReleaseRoundTrip(c, a, h, k);
    RunAppend(c, a, xs, [DropWrapperOp]);
  }

  /** The all-zero identity. */
  const ZeroIid: Guid := seq(16, _ => 0)

  /** A class declaring one interface, whose identity is all zeros. */
  const OneInterfaceClass: Class :=
    Class([Interface("IExample", ZeroIid, None)],
          StructLayout([0], [8]),
          StructLayout([0, 8], [8, 8]))

  /**
   * Wrap a value (count 1), take an owned interface pointer (2), drop the
   * wrapper (1), ask the pointer for the all-zero identity (2), release both
   * pointers (1, then 0): the destructor runs exactly once.
   */
  lemma EndToEndScenario(base: int)
    ensures ValidClass(OneInterfaceClass)
    ensures var c := OneInterfaceClass;
      var a0 := New(base);
      var a1 := Step(c, a0, ToComPtrOp(0));
      && a0.count == 1 && a1.Some? && a1.value.count == 2
      && var a2 := Step(c, a1.value, DropWrapperOp);
      && a2.Some? && a2.value.count == 1
      && var a3 := Step(c, a2.value, QueryInterfaceOp(ZeroIid));
      && a3.Some? && a3.value.count == 2
      && var a4 := Step(c, a3.value, ReleaseOp(InterfaceHold(0)));
      && a4.Some? && a4.value.count == 1 && !a4.value.destroyed
      && var a5 := Step(c, a4.value, ReleaseOp(InterfaceHold(0)));
      && a5.Some? && a5.value.count == 0 && a5.value.destroyed && a5.value.frees == 1
  {
    var c := OneInterfaceClass;
    assert ValidClass(c);
    assert Inherits(c.interfaces[0], ZeroIid);
    assert FirstMatch(c.interfaces, ZeroIid, 0) == Some(0);
    var a0 := New(base);
    var a1 := Step(c, a0, ToComPtrOp(0)).value;
    assert a1.holds == multiset{WrapperHold, InterfaceHold(0)};
    var a2 := Step(c, a1, DropWrapperOp).value;
    assert a2.holds == multiset{InterfaceHold(0)};
    var a3 := Step(c, a2, QueryInterfaceOp(ZeroIid)).value;
    assert a3.holds == multiset{InterfaceHold(0), InterfaceHold(0)};
    var a4 := Step(c, a3, ReleaseOp(InterfaceHold(0))).value;
    assert a4.holds == multiset{InterfaceHold(0)};
  }
}
